=== FILE: README.md ===
# Address-collection widget: the decision rules of `script.js`

The page shows a map and lets the user pick a city and point at their
house. The pin is reverse-geocoded to an address, and the user then submits
a form (name, phone, address, coordinates) to a remote intake endpoint.
Almost all of `script.js` is glue around the map widget, the DOM and
`fetch`. This project models the parts that are rules:

- **Input filters** (`Sanitizers`). On every `input` event the name field
  keeps only the Russian letters, the Kazakh letters Ә Ө Қ Ң Ұ Ү Һ І, white
  space and `-`. The Kazakh letter Ғ is not in the class, so it is deleted.
  The phone field keeps only `0`-`9`.
- **City detection** (`CityDetect`). The detected city name is the first
  locality, or else the first administrative area. It is matched, ignoring
  case, as a substring of each option text of the city selector. The first
  match is selected. When nothing matches, a new option is inserted at the
  front and selected.
- **Placemark** (`Placemark`). The page holds at most one placemark. The
  first chosen location creates it, later ones move it, and a form reset
  removes it.
- **Submission** (`Submission`). The validation gate needs a trimmed address
  and trimmed coordinates that are both non-empty. The button is disabled
  while the request is in flight. Each outcome (OK, non-OK status, thrown
  `fetch`) has its own alert. OK ends with the button enabled and reading
  "Отправить заявку"; both failures end with it enabled and its text kept.
- **The page** (`Page`). The handlers above are composed over one immutable
  page state: the fields, the selector, the hidden detected-city field, the
  placemark and the button. Each event is a pure function from page to page.
  The geocoder's answer and the endpoint's response are inputs.

`JsText` holds the ECMAScript string primitives these rules use.
`String.prototype.trim` and the regular-expression class `\s` use the same
white-space set, so it is defined once. `Wrappers` holds `Option`.
`SanitizerExamples` and `CityExamples` hold worked examples.

Coordinates are a type parameter `C`: the model never looks inside them.

`resetForm`'s `preserveDisable` parameter defaults to keeping the button as
it is. On a successful submission, however, the handler disables the button
and relabels it "Заявка отправлена", then calls `resetForm(false)`
(script.js:234-238). That call enables the button again and restores
"Отправить заявку" (script.js:260-265). So every request ends with the button
enabled, as `Submission.Settle`, `Submission.RequestEndsEnabled` and
`Page.SubmissionLifecycle` prove.

The city selector is compared through each option's `text` attribute
(script.js:189). Per the HTML standard, that attribute reads the option's
text with ASCII white space stripped from both ends and every inner run of
it collapsed to one space. `CityDetect.StripCollapse` models this.

## Model

| member | source | states |
|---|---|---|
| JsText.Trim | script.js:218-219 | `trim` returns a piece of the input with only white space outside it and none at either end. The result is empty exactly when the input is all white space. |
| JsText.IncludesIffInfix | script.js:190 | `includes` holds exactly when the needle occurs at some position of the text. |
| JsText.LowerIsLowerCase | script.js:186-189 | `toLowerCase` leaves no capital of the modelled alphabets (ASCII, Cyrillic, and Kazakh including Ғ) behind. It changes a character exactly when that character is one of those capitals, and each capital becomes its own small letter: a separate upper-case table maps it back. Lower-casing twice is the same as once. |
| Sanitizers.KeepExact | script.js:271 | Deleting a character class with a global `replace` keeps a subsequence of the input. Each character of the class appears in it as often as in the input. |
| Sanitizers.KeepConcat | script.js:271 | The filter works on each character alone: filtering `s + t` gives filter(`s`) + filter(`t`). |
| Sanitizers.KeepUnchangedIff | script.js:271 | The filter leaves a value unchanged exactly when every character is already in the class. |
| Sanitizers.SanitizeName | script.js:270-272 | The filtered name has only Russian letters, the Kazakh letters Ә Ө Қ Ң Ұ Ү Һ І, white space or `-`. It is a subsequence of the typed text and keeps every allowed character, each as often as typed. |
| Sanitizers.SanitizePhone | script.js:273-275 | The filtered phone has only `0`-`9`. It is a subsequence of the typed text and keeps every digit, each as often as typed. |
| Sanitizers.SanitizeNameIdempotent | script.js:271 | Filtering the name twice equals filtering once, and filtering never lengthens the value. |
| Sanitizers.SanitizePhoneIdempotent | script.js:274 | Filtering the phone twice equals filtering once, and filtering never lengthens the value. |
| SanitizerExamples.PhoneExample | script.js:274 | "+7 (701) 123-45-67" becomes "77011234567". |
| SanitizerExamples.NameExample | script.js:271 | "Айгерім-Қыз99" becomes "Айгерім-Қыз". |
| SanitizerExamples.GhainIsDropped | script.js:271 | "Ғалым" becomes "алым": the Kazakh letter Ғ is outside the name field's class. |
| SanitizerExamples.LatinNameExample | script.js:271 | A name typed in Latin letters, digits and punctuation is erased. |
| CityDetect.DetectCity | script.js:184-185 | A non-empty first locality is the detected city. Otherwise a non-empty first administrative area is. Otherwise nothing is detected, and a detected name is never empty. |
| CityDetect.StripCollapseShape | script.js:189 | An option's `text` reads a collapsed string: single spaces only, never at either end, never two in a row. It keeps the other characters in order, is shorter when the text ends in white space, and is the text itself when that is already collapsed. |
| CityDetect.StripCollapseJoin | script.js:189 | Between two pieces that each hold a character other than white space, a run of white space of any length becomes exactly one space in an option's `text`. |
| CityDetect.StripCollapseFixedIff | script.js:189 | Stripping and collapsing leaves a string unchanged exactly when it is already collapsed. Applying it twice is the same as applying it once. |
| CityDetect.TrailingSpaceLosesOwnName | script.js:189-190 | An option made from a name that ends in white space does not match that name. |
| CityDetect.SpacedNameIsInsertedAgain | script.js:186-204 | A detected name ending in white space that no option matches is inserted again on the second detection, leaving two copies in front. |
| CityDetect.FirstMatchFrom | script.js:186-195 | The loop finds the smallest index whose lower-cased option text contains the lower-cased name, or reports that no option matches. |
| CityDetect.SelectCity | script.js:186-204 | With a match, the options stay as they were and the first matching option is selected. Without one, the list becomes `[name/name] + old`, every old option moves from i to i+1, and index 0 is selected. |
| CityDetect.UpdateCity | script.js:183-205 | When no city is detected the selector is unchanged. Otherwise the options stay as they were exactly when some option matches the name, and then the first matching option is selected. When none matches, the name is inserted in front and selected. A name without stray white space always ends up selected by a matching option. |
| CityDetect.UpdateCityIdempotent | script.js:188-204 | For a detected name that stripping and collapsing leaves unchanged, detecting the same result again changes nothing, so that city is never inserted twice. |
| CityDetect.ResetSelection | script.js:251 | `form.reset()` selects the last option that is selected by default, or else the first option. The options themselves are kept. |
| CityExamples.ExistingCityIsSelected | script.js:188-195 | A detected "Алматы" selects the existing "г. Алматы" and inserts nothing. |
| CityExamples.UnknownCityIsInserted | script.js:200-204 | A detected "Шымкент" that matches nothing is inserted in front and selected. |
| CityExamples.EmptyLocalityFallsThrough | script.js:184 | An empty first locality falls through to the administrative area. |
| Placemark.Empty | script.js:2 | The page starts with no placemark and none on the map. |
| Placemark.Place | script.js:162-168 | After placing, the placemark stands at the new location. An existing one is moved without adding another to the map, and the map shows exactly one. |
| Placemark.Clear | script.js:252-255 | Reset leaves no placemark and none on the map. |
| Placemark.PlaceAllLast | script.js:162-168 | After any non-empty run of locations there is exactly one placemark on the map, and it stands at the last location. |
| Submission.CanSend | script.js:218-224 | A request is allowed exactly when the address and the coordinates each contain a character other than white space. |
| Submission.StartRequest | script.js:226 | While the request is in flight the button is disabled and keeps its text. |
| Submission.MarkSent | script.js:234-237 | On an OK response the button is disabled and reads "Заявка отправлена". |
| Submission.RestoreButton | script.js:260-266 | `resetForm(false)` enables the button and restores "Отправить заявку". `resetForm(true)` leaves it as it is. |
| Submission.ReopenAfterFailure | script.js:241-246 | After a non-OK status or a thrown `fetch` the button is enabled and keeps its text. |
| Submission.Settle | script.js:232-246 | Whatever the response, the button ends enabled. OK shows the thanks alert and ends with "Отправить заявку". The two failures show their own alerts and keep the text. |
| Submission.RequestEndsEnabled | script.js:226-246 | A request disables the button while in flight and leaves it enabled after every outcome. "Заявка отправлена" never survives the handler. |
| Page.NameInput | script.js:270-272 | After a name `input` event, the name field holds only allowed characters and is a subsequence of what was typed. It keeps every allowed character, each as often as typed. Nothing else on the page changes. |
| Page.PhoneInput | script.js:273-275 | After a phone `input` event, the phone field holds only digits and is a subsequence of what was typed. It keeps every digit, each as often as typed. Nothing else on the page changes. |
| Page.MirrorCity | script.js:196-199 | The detected-city field, if it exists, takes the detected name. Without a detection it keeps its value. |
| Page.ShowAddress | script.js:172-205 | With no geocoder result the page is unchanged. Otherwise the address and coordinates fields take the result, the selector is updated by city detection, and nothing else changes. |
| Page.Locate | script.js:162-170 | Choosing a location puts the one placemark at it. Apart from the placemark, the effect is the same as the address lookup. |
| Page.ResetForm | script.js:250-267 | The fields and the selection go back to their defaults and the placemark is removed. The hidden detected-city value stays, and the button is restored unless preserved. |
| Page.BeginSubmit | script.js:216-226 | A blank address or blank coordinates refuse with the "choose an address" alert. Otherwise the button is disabled, keeps its text, and nothing else changes. |
| Page.CompleteSubmit | script.js:227-247 | The button and alert follow `Settle`. OK also clears the fields, the placemark and the selection, and keeps the hidden detected-city value and the fields' defaults. A failure changes only the button. |
| Page.BlankFormIsRefused | script.js:221-224 | An all-white-space address or coordinates value never starts a request. |
| Page.SubmissionLifecycle | script.js:216-267 | A request that passes the gate has the button disabled in flight and enabled afterwards. After OK the button reads "Отправить заявку" and the placemark is gone. After a failure the placemark is untouched. |
| Page.LocateEnablesSubmit | script.js:162-224 | After choosing a location whose first result has a non-blank address, with non-blank coordinate text, the form can be sent. |
| Page.HandlersKeepValid | script.js:162-170 | Every handler keeps the invariant that the map shows the placemark exactly when one exists. |

## Left out

- Map construction, controls, the search control, forward and reverse geocoding calls, and the `Promise.all` batch that geocodes every city at start-up (script.js:5-152) are calls into the Yandex Maps API. The reverse geocoder's answer enters the model as the `results` input.
- Browser geolocation and the mobile user-agent test (script.js:118-151) are device I/O. Every location source funnels into `Page.Locate`, which is modelled.
- `fetch` to the intake endpoint, `FormData`, `alert` and `console` (script.js:225-247) are network and UI effects. The response is the `Response` input (OK, non-OK, thrown), and each alert is a `Notice` value.
- The ±0.1-degree search box and the zoom levels (script.js:49-52, 92-96) are floating-point arithmetic on coordinates. `coords.join(", ")` is number formatting, so the coordinate text is an input of `Page.ShowAddress`.
- The 800000 ms confirmation timer and the preview and confirmation elements (script.js:178-181, 207-211, 256-259) are timers and presentation.
- JsText.Lower: lower-cases only ASCII `A`-`Z`, the Cyrillic capitals U+0400-U+042F and the Kazakh capitals Ғ Қ Ң Ү Ұ Һ Ә Ө. Every other character maps to itself, and special cases that change length (such as `İ`) are not modelled, because full Unicode case mapping is a table outside this code.
- Strings are sequences of Unicode scalar values, not UTF-16 code units. A character outside the Basic Multilingual Plane is one element here and two code units in JavaScript. The filters delete it either way, because every allowed character lies in that plane.
- CityDetect.ResetSelection assumes the selector has no disabled options, because the markup is not part of this model. With disabled options, the HTML reset algorithm selects the first enabled option, not the first option.
- CityDetect.ResetSelection: applies to the city selector only if the `<select id="city">` is a control of `#submissionForm`. The markup is not part of this model. If the selector stood outside the form, `form.reset()` would leave its selection as it is.
- CityDetect.UpdateCityIdempotent: holds only for a detected name that stripping and collapsing white space leaves unchanged. For other names, `CityDetect.SpacedNameIsInsertedAgain` proves that the page really does insert the name again.
- Page.ResetForm leaves the detected-city field unchanged, because resetting a hidden input keeps its current value. If the markup made it a visible input, reset would restore its default instead.
- Page.ResetForm: assumes the `address` and `coordinates` fields are visible inputs, so `form.reset()` restores their markup defaults. The markup is not part of this model. If either were a hidden input, reset would keep the value the script wrote, and after a successful submission that field would not be cleared. The selection is reset only under the `CityDetect.ResetSelection` assumption above.
- Placemark.Clear and Page.ResetForm require the placemark invariant (`Valid`). Every handler keeps it, and the initial page has it (`Placemark.Empty`, `Page.HandlersKeepValid`).
- The out-of-order arrival of reverse-geocoder answers after rapid clicks is an asynchronous race. Each handler here runs to completion before the next event.
- Implicit submission (pressing Enter) while the button is disabled is browser behaviour. The model treats each submit event as reaching the handler.

=== FILE: city_detect.dfy ===
/** City detection after reverse geocoding (script.js, `getAddress`): the
    detected city name is matched against the city selector's options, and
    either an existing option is selected or a new one is put in front. */
module CityDetect {
  import opened Wrappers
  import opened JsText

  /** One `<option>` of the city selector: its visible text, its value, and
      whether it is selected by default (the `selected` attribute, which
      `form.reset()` goes back to). */
  datatype CityOption = CityOption(text: string, value: string, defaultSelected: bool)

  /** The city `<select>`: its options in order and its `selectedIndex`
      (-1 when no option is selected). */
  datatype Selector = Selector(options: seq<CityOption>, selectedIndex: int)

  /** The part of a reverse-geocoder result the page reads: the formatted
      address line and the locality and administrative-area names. */
  datatype GeoObject = GeoObject(addressLine: string, localities: seq<string>, areas: seq<string>)

  /** `getLocalities()[0] || getAdministrativeAreas()[0]`, kept only if
      truthy: a missing or empty first locality falls through to the first
      administrative area, and an empty or missing result detects nothing. */
  function DetectCity(g: GeoObject): (d: Option<string>)
    ensures d.Some? ==> d.value != []
    ensures d.Some? ==>
      (|g.localities| > 0 && d.value == g.localities[0]) || (|g.areas| > 0 && d.value == g.areas[0])
    ensures |g.localities| > 0 && g.localities[0] != [] ==> d == Some(g.localities[0])
    ensures d.None? <==>
      (|g.localities| == 0 || g.localities[0] == []) && (|g.areas| == 0 || g.areas[0] == [])
  {
    if |g.localities| > 0 && g.localities[0] != [] then Some(g.localities[0])
    else if |g.areas| > 0 && g.areas[0] != [] then Some(g.areas[0])
    else None
  }

  /** ASCII white space as the HTML standard defines it: tab, line feed,
      form feed, carriage return and space. */
  predicate IsAsciiSpace(c: char) {
    c == '\t' || c == '\n' || c == '\U{C}' || c == '\r' || c == ' '
  }

  /** Every ASCII white-space character of `s` is a single space that is
      not last and is followed by a character other than white space; when
      `lead` is false it is not first either. */
  predicate SingleSpaced(s: string, lead: bool) {
    forall i :: 0 <= i < |s| && IsAsciiSpace(s[i]) ==>
      s[i] == ' ' && (lead || 0 < i) && i < |s| - 1 && !IsAsciiSpace(s[i + 1])
  }

  /** `s` is already in the form that stripping and collapsing white space
      gives. */
  predicate Collapsed(s: string) {
    SingleSpaced(s, false)
  }

  /** The characters of `s` other than ASCII white space, in order. */
  function Squeeze(s: string): (r: string)
    ensures |r| <= |s|
    ensures forall i :: 0 <= i < |r| ==> !IsAsciiSpace(r[i])
  {
    if s == [] then []
    else if IsAsciiSpace(s[0]) then Squeeze(s[1..])
    else [s[0]] + Squeeze(s[1..])
  }

  /** The rest of "strip and collapse ASCII whitespace" once a character
      other than white space has been emitted; `gap` records white space
      seen since then, owed as one space before the next such character. */
  function CollapseRest(s: string, gap: bool): (r: string)
    ensures |r| <= |s| + (if gap then 1 else 0)
  {
    if s == [] then []
    else if IsAsciiSpace(s[0]) then CollapseRest(s[1..], true)
    else (if gap then [' '] else []) + [s[0]] + CollapseRest(s[1..], false)
  }

  /** The HTML standard's "strip and collapse ASCII whitespace", which the
      `text` attribute of an `<option>` applies to the option's text: white
      space at either end is removed and every inner run of it becomes one
      space. */
  function StripCollapse(s: string): (r: string)
    ensures |r| <= |s|
  {
    if s == [] then []
    else if IsAsciiSpace(s[0]) then StripCollapse(s[1..])
    else [s[0]] + CollapseRest(s[1..], false)
  }

  /** Dropping the first character keeps a string single-spaced, with a
      space allowed in front. */
  lemma SingleSpacedTail(s: string, lead: bool)
    requires |s| > 0 && SingleSpaced(s, lead)
    ensures SingleSpaced(s[1..], true)
  {
    forall i | 0 <= i < |s[1..]| && IsAsciiSpace(s[1..][i])
      ensures s[1..][i] == ' ' && i < |s[1..]| - 1 && !IsAsciiSpace(s[1..][i + 1])
    {
      assert s[1..][i] == s[i + 1];
    }
  }

  /** A character other than white space, perhaps after one space, in
      front of a single-spaced string keeps it single-spaced. */
  lemma SingleSpacedPrepend(c: char, rest: string, gap: bool)
    requires !IsAsciiSpace(c) && SingleSpaced(rest, true)
    ensures SingleSpaced((if gap then [' '] else []) + [c] + rest, true)
  {
    var front: string := (if gap then [' '] else []) + [c];
    var r := front + rest;
    forall i | 0 <= i < |r| && IsAsciiSpace(r[i])
      ensures r[i] == ' ' && i < |r| - 1 && !IsAsciiSpace(r[i + 1])
    {
      if i >= |front| {
        assert r[i] == rest[i - |front|];
        assert i - |front| < |rest| - 1;
        assert r[i + 1] == rest[i + 1 - |front|];
      } else {
        assert gap && i == 0 && r[1] == c;
      }
    }
  }

  /** `CollapseRest` emits single spaces between other characters. */
  lemma {:induction false} CollapseRestSpaced(s: string, gap: bool)
    ensures SingleSpaced(CollapseRest(s, gap), true)
  {
    if s != [] {
      CollapseRestSpaced(s[1..], IsAsciiSpace(s[0]));
      if !IsAsciiSpace(s[0]) {
        SingleSpacedPrepend(s[0], CollapseRest(s[1..], false), gap);
      }
    }
  }

  /** `CollapseRest` keeps the characters other than white space, in
      order. */
  lemma {:induction false} CollapseRestSqueeze(s: string, gap: bool)
    ensures Squeeze(CollapseRest(s, gap)) == Squeeze(s)
  {
    if s != [] {
      if IsAsciiSpace(s[0]) {
        CollapseRestSqueeze(s[1..], true);
      } else {
        CollapseRestSqueeze(s[1..], false);
        var rest := CollapseRest(s[1..], false);
        assert ([s[0]] + rest)[1..] == rest;
        assert Squeeze([s[0]] + rest) == [s[0]] + Squeeze(rest);
        if gap {
          assert ([' '] + [s[0]] + rest)[1..] == [s[0]] + rest;
        }
      }
    }
  }

  /** Trailing white space is dropped, so the output is at least one
      character shorter (not counting an owed space). */
  lemma {:induction false} CollapseRestShorter(s: string, gap: bool)
    requires |s| > 0 && IsAsciiSpace(s[|s| - 1])
    ensures |CollapseRest(s, gap)| + (if gap then 0 else 1) <= |s|
  {
    if |s| > 1 {
      assert s[1..][|s[1..]| - 1] == s[|s| - 1];
      CollapseRestShorter(s[1..], IsAsciiSpace(s[0]));
    }
  }

  /** An already collapsed input comes out as it went in, after the owed
      space. */
  lemma {:induction false} CollapseRestFixed(s: string, gap: bool)
    requires SingleSpaced(s, true)
    requires gap ==> |s| > 0 && !IsAsciiSpace(s[0])
    ensures CollapseRest(s, gap) == (if gap then [' '] + s else s)
  {
    if s != [] {
      SingleSpacedTail(s, true);
      if IsAsciiSpace(s[0]) {
        CollapseRestFixed(s[1..], true);
        assert [' '] + s[1..] == s;
      } else {
        CollapseRestFixed(s[1..], false);
        assert [s[0]] + s[1..] == s;
      }
    }
  }

  /** What stripping and collapsing gives: a collapsed string with the same
      characters other than white space in the same order, shorter when the
      input ends in white space, and the input itself when it is already
      collapsed. */
  lemma {:induction false} StripCollapseShape(s: string)
    ensures Collapsed(StripCollapse(s))
    ensures Squeeze(StripCollapse(s)) == Squeeze(s)
    ensures |s| > 0 && IsAsciiSpace(s[|s| - 1]) ==> |StripCollapse(s)| < |s|
    ensures Collapsed(s) ==> StripCollapse(s) == s
  {
    if s == [] {
    } else if IsAsciiSpace(s[0]) {
      StripCollapseShape(s[1..]);
      if |s| > 1 {
        assert s[1..][|s[1..]| - 1] == s[|s| - 1];
      }
    } else {
      var rest := CollapseRest(s[1..], false);
      CollapseRestSpaced(s[1..], false);
      CollapseRestSqueeze(s[1..], false);
      if |s| > 1 && IsAsciiSpace(s[|s| - 1]) {
        assert s[1..][|s[1..]| - 1] == s[|s| - 1];
        CollapseRestShorter(s[1..], false);
      }
      var r := [s[0]] + rest;
      assert forall i :: 0 <= i < |rest| ==> r[i + 1] == rest[i];
      assert r[1..] == rest;
      assert Squeeze(r) == [s[0]] + Squeeze(rest);
      if Collapsed(s) {
        SingleSpacedTail(s, false);
        CollapseRestFixed(s[1..], false);
        assert [s[0]] + s[1..] == s;
      }
    }
  }

  /** A string is left as it is by stripping and collapsing exactly when it
      is already collapsed, so stripping and collapsing twice is the same as
      once. */
  lemma StripCollapseFixedIff(s: string)
    ensures StripCollapse(s) == s <==> Collapsed(s)
    ensures StripCollapse(StripCollapse(s)) == StripCollapse(s)
  {
    StripCollapseShape(s);
    StripCollapseShape(StripCollapse(s));
  }

  /** `s` holds nothing but ASCII white space. */
  predicate Blank(s: string) {
    forall i :: 0 <= i < |s| ==> IsAsciiSpace(s[i])
  }

  /** Once a text `t` gives the same output `R` whatever white space came
      before it, processing `a` and then `t` gives `a`'s output followed by
      `R`. */
  lemma {:induction false} CollapseRestAppend(a: string, t: string, gap: bool, R: string)
    requires CollapseRest(t, true) == R && CollapseRest(t, false) == R
    ensures CollapseRest(a + t, gap) == CollapseRest(a, gap) + R
  {
    if a == [] {
      assert a + t == t;
    } else {
      assert (a + t)[1..] == a[1..] + t;
      assert (a + t)[0] == a[0];
      if IsAsciiSpace(a[0]) {
        CollapseRestAppend(a[1..], t, true, R);
      } else {
        CollapseRestAppend(a[1..], t, false, R);
      }
    }
  }

  /** After white space, a text with a character other than white space
      comes out as one space and then its stripped and collapsed form. */
  lemma {:induction false} GapThenWord(y: string)
    requires !Blank(y)
    ensures CollapseRest(y, true) == [' '] + StripCollapse(y)
  {
    if IsAsciiSpace(y[0]) {
      assert !Blank(y[1..]) by {
        var k :| 0 <= k < |y| && !IsAsciiSpace(y[k]);
        assert y[1..][k - 1] == y[k];
      }
      GapThenWord(y[1..]);
    }
  }

  /** A non-empty run of white space followed by a word comes out as one
      space and the word's stripped and collapsed form, whatever came
      before. */
  lemma {:induction false} RunThenWord(w: string, y: string, gap: bool)
    requires |w| > 0 && Blank(w) && !Blank(y)
    ensures CollapseRest(w + y, gap) == [' '] + StripCollapse(y)
  {
    assert (w + y)[0] == w[0];
    assert (w + y)[1..] == w[1..] + y;
    if |w| == 1 {
      assert w[1..] + y == y;
      GapThenWord(y);
    } else {
      RunThenWord(w[1..], y, true);
    }
  }

  /** Stripping and collapsing a text with a character other than white
      space, followed by a `t` whose output does not depend on what came
      before, gives the two outputs joined. */
  lemma {:induction false} StripCollapseAppend(x: string, t: string, R: string)
    requires !Blank(x)
    requires CollapseRest(t, true) == R && CollapseRest(t, false) == R
    ensures StripCollapse(x + t) == StripCollapse(x) + R
  {
    assert (x + t)[0] == x[0];
    assert (x + t)[1..] == x[1..] + t;
    if IsAsciiSpace(x[0]) {
      assert !Blank(x[1..]) by {
        var k :| 0 <= k < |x| && !IsAsciiSpace(x[k]);
        assert x[1..][k - 1] == x[k];
      }
      StripCollapseAppend(x[1..], t, R);
    } else {
      CollapseRestAppend(x[1..], t, false, R);
    }
  }

  /** An inner run of white space between two words becomes exactly one
      space. */
  lemma StripCollapseJoin(x: string, w: string, y: string)
    requires !Blank(x) && !Blank(y)
    requires |w| > 0 && Blank(w)
    ensures StripCollapse(x + w + y) == StripCollapse(x) + " " + StripCollapse(y)
  {
    var R := [' '] + StripCollapse(y);
    RunThenWord(w, y, true);
    RunThenWord(w, y, false);
    StripCollapseAppend(x, w + y, R);
    assert x + w + y == x + (w + y);
  }

  /** What `citySelect.options[i].text` reads. */
  function OptionText(o: CityOption): string {
    StripCollapse(o.text)
  }

  /** Case-insensitive containment: the option's lower-cased `text`
      contains the lower-cased city name. */
  predicate Matches(o: CityOption, city: string) {
    Includes(Lower(OptionText(o)), Lower(city))
  }

  /** The `for` loop with `break`: the first option at or after `i` that
      matches `city`. */
  function FirstMatchFrom(opts: seq<CityOption>, city: string, i: nat): (k: Option<nat>)
    requires i <= |opts|
    ensures k.Some? ==> i <= k.value < |opts| && Matches(opts[k.value], city)
    ensures k.Some? ==> forall j :: i <= j < k.value ==> !Matches(opts[j], city)
    ensures k.None? <==> forall j :: i <= j < |opts| ==> !Matches(opts[j], city)
    decreases |opts| - i
  {
    if i == |opts| then None
    else if Matches(opts[i], city) then Some(i)
    else FirstMatchFrom(opts, city, i + 1)
  }

  /** The selector after a city name has been detected: the first matching
      option becomes selected; without one, an option whose text and value
      are the name is inserted at the front and selected. */
  function SelectCity(sel: Selector, city: string): (r: Selector)
    ensures FirstMatchFrom(sel.options, city, 0).Some? ==>
      && r.options == sel.options
      && 0 <= r.selectedIndex < |sel.options|
      && Matches(sel.options[r.selectedIndex], city)
      && forall j :: 0 <= j < r.selectedIndex ==> !Matches(sel.options[j], city)
    ensures FirstMatchFrom(sel.options, city, 0).None? ==>
      && r.options == [CityOption(city, city, true)] + sel.options
      && r.selectedIndex == 0
      && forall j :: 0 <= j < |sel.options| ==> r.options[j + 1] == sel.options[j]
  {
    match FirstMatchFrom(sel.options, city, 0)
    case Some(k) => Selector(sel.options, k)
    case None => Selector([CityOption(city, city, true)] + sel.options, 0)
  }

  /** An option made from a collapsed name matches that name, whatever its
      case. */
  lemma MatchesOwnName(city: string)
    ensures Collapsed(city) ==> Matches(CityOption(city, city, true), city)
  {
    StripCollapseShape(city);
    var l := Lower(city);
    assert l[..|l|] == l;
    assert StartsWith(l, l);
  }

  /** Lines 183-205 as a whole. Without a detected city nothing changes.
      With one, the options stay as they were exactly when some option
      matches the name, and then the first match is selected; otherwise the
      name is inserted in front and selected. */
  function UpdateCity(sel: Selector, g: GeoObject): (r: Selector)
    ensures DetectCity(g).None? ==> r == sel
    ensures DetectCity(g).Some? ==>
      (r.options == sel.options <==>
       exists j :: 0 <= j < |sel.options| && Matches(sel.options[j], DetectCity(g).value))
    ensures DetectCity(g).Some? && r.options == sel.options ==>
      var city := DetectCity(g).value;
      && 0 <= r.selectedIndex < |r.options|
      && Matches(r.options[r.selectedIndex], city)
      && forall j :: 0 <= j < r.selectedIndex ==> !Matches(r.options[j], city)
    ensures DetectCity(g).Some? && r.options != sel.options ==>
      var city := DetectCity(g).value;
      r.options == [CityOption(city, city, true)] + sel.options && r.selectedIndex == 0
    ensures DetectCity(g).Some? && Collapsed(DetectCity(g).value) ==>
      0 <= r.selectedIndex < |r.options| && Matches(r.options[r.selectedIndex], DetectCity(g).value)
  {
    match DetectCity(g)
    case None => sel
    case Some(city) =>
      MatchesOwnName(city);
      SelectCity(sel, city)
  }

  /** Detecting the same collapsed city name again changes nothing: an
      inserted option matches its own name, so a second detection selects it
      instead of inserting a duplicate. */
  lemma {:induction false} UpdateCityIdempotent(sel: Selector, g: GeoObject)
    requires DetectCity(g).Some? ==> Collapsed(DetectCity(g).value)
    ensures UpdateCity(UpdateCity(sel, g), g) == UpdateCity(sel, g)
  {
    match DetectCity(g)
    case None =>
    case Some(city) =>
      var r := SelectCity(sel, city);
      if FirstMatchFrom(sel.options, city, 0).None? {
        MatchesOwnName(city);
        assert FirstMatchFrom(r.options, city, 0) == Some(0);
      }
  }

  /** An option made from a name that ends in white space does not match
      that name: its `text` has lost the trailing space and is shorter than
      the name. */
  lemma TrailingSpaceLosesOwnName(city: string)
    requires |city| > 0 && IsAsciiSpace(city[|city| - 1])
    ensures !Matches(CityOption(city, city, true), city)
  {
    var o := CityOption(city, city, true);
    StripCollapseShape(city);
    assert |Lower(OptionText(o))| < |Lower(city)|;
    IncludesIffInfix(Lower(OptionText(o)), Lower(city));
  }

  /** A detected name that ends in white space is inserted again on every
      detection when no option of the list matches it, because the inserted
      option does not match the name. */
  lemma {:induction false} SpacedNameIsInsertedAgain(sel: Selector, g: GeoObject)
    requires DetectCity(g).Some?
    requires var city := DetectCity(g).value; IsAsciiSpace(city[|city| - 1])
    requires forall j :: 0 <= j < |sel.options| ==> !Matches(sel.options[j], DetectCity(g).value)
    ensures var city := DetectCity(g).value;
      UpdateCity(UpdateCity(sel, g), g).options
        == [CityOption(city, city, true), CityOption(city, city, true)] + sel.options
  {
    var city := DetectCity(g).value;
    var o := CityOption(city, city, true);
    TrailingSpaceLosesOwnName(city);
    InsertedWhenNothingMatches(sel, city);
    var once := SelectCity(sel, city);
    assert UpdateCity(sel, g) == once;
    assert once.options == [o] + sel.options;
    NothingMatchesAfterInsert(o, sel.options, city);
    InsertedWhenNothingMatches(once, city);
    assert UpdateCity(once, g) == SelectCity(once, city);
    assert [o] + ([o] + sel.options) == [o, o] + sel.options;
  }

  /** With no matching option the name is put in front. */
  lemma InsertedWhenNothingMatches(sel: Selector, city: string)
    requires forall j :: 0 <= j < |sel.options| ==> !Matches(sel.options[j], city)
    ensures SelectCity(sel, city).options == [CityOption(city, city, true)] + sel.options
  {
  }

  /** Putting a non-matching option in front of non-matching options leaves
      no match. */
  lemma NothingMatchesAfterInsert(o: CityOption, opts: seq<CityOption>, city: string)
    requires !Matches(o, city)
    requires forall j :: 0 <= j < |opts| ==> !Matches(opts[j], city)
    ensures forall j :: 0 <= j < |[o] + opts| ==> !Matches(([o] + opts)[j], city)
  {
    forall j | 0 <= j < |[o] + opts|
      ensures !Matches(([o] + opts)[j], city)
    {
      if j > 0 {
        assert ([o] + opts)[j] == opts[j - 1];
      }
    }
  }

  /** What `form.reset()` does to a single-choice `<select>`: every option
      goes back to its default selectedness; when several are selected by
      default the last of them wins, and when none is, the first option is
      selected (-1 for an empty list). */
  function ResetSelection(sel: Selector): (r: Selector)
    ensures r.options == sel.options
    ensures |sel.options| == 0 ==> r.selectedIndex == -1
    ensures (exists j :: 0 <= j < |sel.options| && sel.options[j].defaultSelected) ==>
      && 0 <= r.selectedIndex < |sel.options|
      && sel.options[r.selectedIndex].defaultSelected
      && forall j :: r.selectedIndex < j < |sel.options| ==> !sel.options[j].defaultSelected
    ensures (forall j :: 0 <= j < |sel.options| ==> !sel.options[j].defaultSelected) && |sel.options| > 0 ==>
      r.selectedIndex == 0
  {
    Selector(sel.options, LastDefault(sel.options, |sel.options|))
  }

  /** The last option before position `n` that is selected by default; 0
      when there is none, -1 for an empty list. */
  function LastDefault(opts: seq<CityOption>, n: nat): (k: int)
    requires n <= |opts|
    ensures -1 <= k < |opts|
    ensures k == -1 <==> |opts| == 0
    ensures (exists j :: 0 <= j < n && opts[j].defaultSelected) ==>
      0 <= k < n && opts[k].defaultSelected && forall j :: k < j < n ==> !opts[j].defaultSelected
    ensures (forall j :: 0 <= j < n ==> !opts[j].defaultSelected) ==> k == (if |opts| == 0 then -1 else 0)
  {
    if n == 0 then (if |opts| == 0 then -1 else 0)
    else if opts[n - 1].defaultSelected then n - 1
    else LastDefault(opts, n - 1)
  }
}

=== FILE: city_examples.dfy ===
/** Worked examples of city detection against a two-city selector. */
module CityExamples {
  import opened Wrappers
  import opened JsText
  import opened CityDetect

  function TwoCities(): Selector {
    Selector([CityOption("Астана", "Астана", true), CityOption("г. Алматы", "Алматы", false)], 0)
  }

  lemma LowerNames()
    ensures Lower("Астана") == "астана"
    ensures Lower("г. Алматы") == "г. алматы"
    ensures Lower("Алматы") == "алматы"
    ensures Lower("Шымкент") == "шымкент"
  {
  }

  /** "г. Алматы" is already collapsed: its one space stands between two
      other characters. */
  lemma AlmatyText()
    ensures StripCollapse("г. Алматы") == "г. Алматы"
  {
    assert SingleSpaced("Алматы", true);
    CollapseRestFixed("Алматы", true);
    assert " Алматы"[1..] == "Алматы";
    assert CollapseRest(" Алматы", false) == " Алматы";
    assert ". Алматы"[1..] == " Алматы";
    assert CollapseRest(". Алматы", false) == ". Алматы";
    assert "г. Алматы"[1..] == ". Алматы";
  }

  /** Both option texts read back unchanged through `text`. */
  lemma OptionTexts()
    ensures OptionText(TwoCities().options[0]) == "Астана"
    ensures OptionText(TwoCities().options[1]) == "г. Алматы"
  {
    assert StripCollapse("Астана") == "Астана";
    AlmatyText();
  }

  /** Matching once the lower-cased option text and name are known. */
  lemma MatchesVia(o: CityOption, city: string, text: string, name: string)
    requires Lower(OptionText(o)) == text && Lower(city) == name
    ensures Matches(o, city) <==> Includes(text, name)
  {
  }

  lemma AlmatyIncludes()
    ensures !Includes("астана", "алматы")
    ensures Includes("г. алматы", "алматы")
  {
    IncludesIffInfix("астана", "алматы");
    assert forall i :: !InfixAt("астана", "алматы", i) by {
      assert "астана"[1] != "алматы"[1];
    }
    IncludesIffInfix("г. алматы", "алматы");
    assert "г. алматы"[3..9] == "алматы";
    assert InfixAt("г. алматы", "алматы", 3);
  }

  lemma ShymkentIncludes()
    ensures !Includes("астана", "шымкент")
    ensures !Includes("г. алматы", "шымкент")
  {
    var a, h, n := "астана", "г. алматы", "шымкент";
    assert |a| < |n|;
    IncludesIffInfix(a, n);
    IncludesIffInfix(h, n);
    assert |h| == 9 && |n| == 7 && n[0] == 'ш';
    assert forall i :: InfixAt(h, n, i) ==> i == 0 || i == 1 || i == 2;
    assert !InfixAt(h, n, 0) by { assert h[0..7][0] == h[0] != n[0]; }
    assert !InfixAt(h, n, 1) by { assert h[1..8][0] == h[1] != n[0]; }
    assert !InfixAt(h, n, 2) by { assert h[2..9][0] == h[2] != n[0]; }
  }

  lemma AlmatyMatchesSecond()
    ensures !Matches(TwoCities().options[0], "Алматы")
    ensures Matches(TwoCities().options[1], "Алматы")
  {
    OptionTexts();
    LowerNames();
    AlmatyIncludes();
    MatchesVia(TwoCities().options[0], "Алматы", "астана", "алматы");
    MatchesVia(TwoCities().options[1], "Алматы", "г. алматы", "алматы");
  }

  lemma ShymkentMatchesNothing()
    ensures !Matches(TwoCities().options[0], "Шымкент")
    ensures !Matches(TwoCities().options[1], "Шымкент")
  {
    OptionTexts();
    LowerNames();
    ShymkentIncludes();
    MatchesVia(TwoCities().options[0], "Шымкент", "астана", "шымкент");
    MatchesVia(TwoCities().options[1], "Шымкент", "г. алматы", "шымкент");
  }

  /** A detected "Алматы" selects the existing option "г. Алматы" instead
      of inserting a duplicate. */
  lemma ExistingCityIsSelected()
    ensures UpdateCity(TwoCities(), GeoObject("", ["Алматы"], [])) == TwoCities().(selectedIndex := 1)
  {
    AlmatyMatchesSecond();
  }

  /** A detected "Шымкент" matches no option, so it is inserted in front
      and selected. */
  lemma UnknownCityIsInserted()
    ensures var r := UpdateCity(TwoCities(), GeoObject("", ["Шымкент"], []));
      r.options == [CityOption("Шымкент", "Шымкент", true)] + TwoCities().options && r.selectedIndex == 0
  {
    ShymkentMatchesNothing();
  }

  /** An empty locality falls through to the administrative area. */
  lemma EmptyLocalityFallsThrough()
    ensures DetectCity(GeoObject("", [""], ["Алматинская область"])) == Some("Алматинская область")
  {
  }
}

=== FILE: js_text.dfy ===
/** The few ECMAScript string primitives the page relies on: the `\s`
    character class, `String.prototype.trim`, `toLowerCase` (for the letters
    the page deals in) and `String.prototype.includes`. Strings are sequences
    of Unicode scalar values; every character the page treats specially lies
    in the Basic Multilingual Plane, where one scalar value is one UTF-16
    code unit. */
module JsText {

  /** The characters of ECMAScript's WhiteSpace and LineTerminator
      productions. The regular-expression class `\s` matches exactly these,
      and `trim` removes exactly these from both ends. */
  predicate IsJsSpace(c: char) {
    || c == '\t' || c == '\n' || c == '\U{B}' || c == '\U{C}' || c == '\r'
    || c == ' ' || c == '\U{A0}' || c == '\U{1680}'
    || ('\U{2000}' <= c <= '\U{200A}')
    || c == '\U{2028}' || c == '\U{2029}' || c == '\U{202F}' || c == '\U{205F}'
    || c == '\U{3000}' || c == '\U{FEFF}'
  }

  predicate AllSpace(s: string) {
    forall i :: 0 <= i < |s| ==> IsJsSpace(s[i])
  }

  /** `needle` occurs in `hay` starting at position `i`. */
  predicate InfixAt(hay: string, needle: string, i: int) {
    0 <= i <= |hay| - |needle| && hay[i..i + |needle|] == needle
  }

  /** Every character of `s` outside positions `lo` to `hi` is white space. */
  predicate SpaceOutside(s: string, lo: int, hi: int) {
    forall j :: 0 <= j < |s| && !(lo <= j < hi) ==> IsJsSpace(s[j])
  }

  /** Position of the first character at or after `lo` that is not white
      space, or `|s|` when there is none. */
  function SkipSpace(s: string, lo: nat): (i: nat)
    requires lo <= |s|
    ensures lo <= i <= |s|
    ensures forall j :: lo <= j < i ==> IsJsSpace(s[j])
    ensures i == |s| || !IsJsSpace(s[i])
    decreases |s| - lo
  {
    if lo < |s| && IsJsSpace(s[lo]) then SkipSpace(s, lo + 1) else lo
  }

  /** Position just past the last character before `hi` that is not white
      space, or `lo` when there is none from `lo` on. */
  function SkipSpaceBack(s: string, lo: nat, hi: nat): (j: nat)
    requires lo <= hi <= |s|
    ensures lo <= j <= hi
    ensures forall m :: j <= m < hi ==> IsJsSpace(s[m])
    ensures j == lo || !IsJsSpace(s[j - 1])
    decreases hi
  {
    if lo < hi && IsJsSpace(s[hi - 1]) then SkipSpaceBack(s, lo, hi - 1) else hi
  }

  /** `String.prototype.trim`: the part of `s` between its leading and its
      trailing white space. It is empty exactly when `s` holds nothing but
      white space. */
  function Trim(s: string): (r: string)
    ensures exists i :: InfixAt(s, r, i) && SpaceOutside(s, i, i + |r|)
    ensures r == [] || (!IsJsSpace(r[0]) && !IsJsSpace(r[|r| - 1]))
    ensures r == [] <==> AllSpace(s)
  {
    var i := SkipSpace(s, 0);
    var j := SkipSpaceBack(s, i, |s|);
    assert InfixAt(s, s[i..j], i);
    s[i..j]
  }

  /** The capitals `LowerChar` maps: ASCII `A`-`Z`, the Cyrillic capitals
      U+0400-U+042F and the Kazakh capitals Ғ Қ Ң Ү Ұ Һ Ә Ө (І lies in
      U+0400-U+040F). */
  predicate IsUpper(c: char) {
    || 'A' <= c <= 'Z' || '\U{400}' <= c <= '\U{42F}'
    || c == '\U{492}' || c == '\U{49A}' || c == '\U{4A2}' || c == '\U{4AE}'
    || c == '\U{4B0}' || c == '\U{4BA}' || c == '\U{4D8}' || c == '\U{4E8}'
  }

  /** Lower-case mapping of one character, for the letters the page deals
      in: each capital of `IsUpper` goes to its small letter, and every
      other character maps to itself. */
  function LowerChar(c: char): char {
    if 'A' <= c <= 'Z' || '\U{410}' <= c <= '\U{42F}' then (c as int + 0x20) as char
    else if '\U{400}' <= c <= '\U{40F}' then (c as int + 0x50) as char
    else if IsUpper(c) then (c as int + 1) as char
    else c
  }

  /** `String.prototype.toLowerCase`, character by character. */
  function Lower(s: string): (r: string)
    ensures |r| == |s|
    ensures forall i :: 0 <= i < |s| ==> r[i] == LowerChar(s[i])
  {
    seq(|s|, i requires 0 <= i < |s| => LowerChar(s[i]))
  }

  /** Upper-case mapping of one small letter, written as its own table:
      ASCII `a`-`z`, the Cyrillic small letters U+0430-U+045F and the Kazakh
      small letters ғ қ ң ү ұ һ ә ө go to their capitals. Every other
      character maps to itself. */
  function UpperChar(c: char): char {
    if 'a' <= c <= 'z' || 'а' <= c <= 'я' then (c as int - 0x20) as char
    else if 'ѐ' <= c <= 'џ' then (c as int - 0x50) as char
    else match c
      case 'ғ' => 'Ғ'
      case 'қ' => 'Қ'
      case 'ң' => 'Ң'
      case 'ү' => 'Ү'
      case 'ұ' => 'Ұ'
      case 'һ' => 'Һ'
      case 'ә' => 'Ә'
      case 'ө' => 'Ө'
      case _ => c
  }

  /** Lower-casing leaves no capital behind, changes nothing but capitals,
      turns each capital into its own small letter (the one `UpperChar`
      maps back to it), and lower-casing twice is the same as once. */
  lemma {:induction false} LowerIsLowerCase(s: string)
    ensures forall i :: 0 <= i < |s| ==> !IsUpper(Lower(s)[i])
    ensures forall i :: 0 <= i < |s| ==> (Lower(s)[i] == s[i] <==> !IsUpper(s[i]))
    ensures forall i :: 0 <= i < |s| && IsUpper(s[i]) ==> UpperChar(Lower(s)[i]) == s[i]
    ensures Lower(Lower(s)) == Lower(s)
  {
    forall i | 0 <= i < |s|
      ensures !IsUpper(Lower(s)[i])
      ensures Lower(s)[i] == s[i] <==> !IsUpper(s[i])
      ensures IsUpper(s[i]) ==> UpperChar(Lower(s)[i]) == s[i]
    {
      var c := s[i];
      assert Lower(s)[i] == LowerChar(c);
      UpperOfLower(c);
    }
    var l := Lower(s);
    assert forall i :: 0 <= i < |l| ==> Lower(l)[i] == l[i];
  }

  /** `UpperChar` undoes `LowerChar` on every capital. */
  lemma UpperOfLower(c: char)
    ensures IsUpper(c) ==> UpperChar(LowerChar(c)) == c
  {
  }

  predicate StartsWith(s: string, prefix: string) {
    |prefix| <= |s| && s[..|prefix|] == prefix
  }

  /** `String.prototype.includes`: tries every start position from the left. */
  predicate Includes(hay: string, needle: string)
    decreases |hay|
  {
    StartsWith(hay, needle) || (|hay| > 0 && Includes(hay[1..], needle))
  }

  /** `Includes` holds exactly when `needle` occurs somewhere in `hay`. */
  lemma {:induction false} IncludesIffInfix(hay: string, needle: string)
    ensures Includes(hay, needle) <==> exists i :: InfixAt(hay, needle, i)
    decreases |hay|
  {
    if StartsWith(hay, needle) {
      assert InfixAt(hay, needle, 0);
    } else if |hay| == 0 {
      assert forall i :: !InfixAt(hay, needle, i);
    } else {
      var tail := hay[1..];
      IncludesIffInfix(tail, needle);
      if i :| InfixAt(tail, needle, i) {
        assert hay[i + 1..i + 1 + |needle|] == tail[i..i + |needle|];
        assert InfixAt(hay, needle, i + 1);
      }
      forall i | InfixAt(hay, needle, i)
        ensures InfixAt(tail, needle, i - 1)
      {
        assert i != 0;
        assert tail[i - 1..i - 1 + |needle|] == hay[i..i + |needle|];
      }
    }
  }
}

=== FILE: page.dfy ===
/** The page as a whole: the form fields, the city selector, the hidden
    detected-city field, the placemark and the submit button, and the event
    handlers of script.js that change them. Each handler runs to completion
    before the next event; the geocoder's answer and the endpoint's response
    are inputs of the handler they reach. */
module Page {
  import opened Wrappers
  import opened JsText
  import opened Sanitizers
  import opened CityDetect
  import opened Placemark
  import opened Submission

  /** The text fields of the form. */
  datatype Fields = Fields(name: string, phone: string, address: string, coordinates: string)

  /** Everything the handlers read or write. `defaults` holds the fields'
      values as written in the markup, which `form.reset()` restores;
      `detectedCity` is None when the page has no `detected_city` element,
      and `button` is None when it has no submit button. */
  datatype PageState<C> = PageState(
    fields: Fields,
    defaults: Fields,
    selector: Selector,
    detectedCity: Option<string>,
    scene: Scene<C>,
    button: Option<Button>)
  {
    predicate Valid() {
      scene.Valid()
    }
  }

  /** Lines 270-272: the name field's `input` event. */
  function NameInput<C>(p: PageState<C>, typed: string): (r: PageState<C>)
    ensures forall i :: 0 <= i < |r.fields.name| ==> IsNameChar(r.fields.name[i])
    ensures IsSubsequence(r.fields.name, typed)
    ensures forall c :: IsNameChar(c) ==> multiset(r.fields.name)[c] == multiset(typed)[c]
    ensures r.fields.(name := p.fields.name) == p.fields
    ensures r.(fields := p.fields) == p
  {
    p.(fields := p.fields.(name := SanitizeName(typed)))
  }

  /** Lines 273-275: the phone field's `input` event. */
  function PhoneInput<C>(p: PageState<C>, typed: string): (r: PageState<C>)
    ensures forall i :: 0 <= i < |r.fields.phone| ==> IsAsciiDigit(r.fields.phone[i])
    ensures IsSubsequence(r.fields.phone, typed)
    ensures forall c :: IsAsciiDigit(c) ==> multiset(r.fields.phone)[c] == multiset(typed)[c]
    ensures r.fields.(phone := p.fields.phone) == p.fields
    ensures r.(fields := p.fields) == p
  {
    p.(fields := p.fields.(phone := SanitizePhone(typed)))
  }

  /** The `detected_city` element after a detection: written when it exists
      and a city was detected, otherwise left as it was. */
  function MirrorCity(field: Option<string>, d: Option<string>): (r: Option<string>)
    ensures r.Some? <==> field.Some?
    ensures field.Some? && d.Some? ==> r == d
    ensures d.None? ==> r == field
  {
    if field.Some? && d.Some? then d else field
  }

  /** Lines 173-205, `getAddress` once the reverse geocoder has answered
      with `results`. `coordText` is `coords.join(", ")`. With no result,
      reading the first one throws before anything is written, so the page
      stays as it was. */
  function ShowAddress<C>(p: PageState<C>, results: seq<GeoObject>, coordText: string): (r: PageState<C>)
    ensures |results| == 0 ==> r == p
    ensures |results| > 0 ==>
      && r.fields == p.fields.(address := results[0].addressLine, coordinates := coordText)
      && r.selector == UpdateCity(p.selector, results[0])
      && r.detectedCity == MirrorCity(p.detectedCity, DetectCity(results[0]))
      && r.defaults == p.defaults && r.scene == p.scene && r.button == p.button
  {
    if |results| == 0 then p
    else
      var g := results[0];
      p.(fields := p.fields.(address := g.addressLine, coordinates := coordText),
         selector := UpdateCity(p.selector, g),
         detectedCity := MirrorCity(p.detectedCity, DetectCity(g)))
  }

  /** Lines 162-170, `setPlacemarkAndAddress`: the placemark is placed or
      moved to `c`, then the address is looked up. Every way of choosing a
      location (map click, search result, geolocation) ends here. */
  function Locate<C>(p: PageState<C>, c: C, results: seq<GeoObject>, coordText: string): (r: PageState<C>)
    ensures r.scene.placemark == Some(c)
    ensures p.Valid() ==> r.Valid() && r.scene.onMap == 1
    ensures r.(scene := p.scene) == ShowAddress(p, results, coordText)
  {
    ShowAddress(p.(scene := Place(p.scene, c)), results, coordText)
  }

  /** Lines 250-267, `resetForm(preserveDisable)`: the fields and the city
      selection go back to the markup's defaults, the placemark is removed,
      and unless asked to preserve it the button is enabled again. The
      hidden `detected_city` field keeps its value: resetting a hidden input
      does not change it. */
  function ResetForm<C>(p: PageState<C>, preserveDisable: bool): (r: PageState<C>)
    requires p.Valid()
    ensures r.Valid()
    ensures r.fields == p.defaults && r.defaults == p.defaults
    ensures r.selector == ResetSelection(p.selector)
    ensures r.scene.placemark.None? && r.scene.onMap == 0
    ensures r.detectedCity == p.detectedCity
    ensures r.button == RestoreButton(p.button, preserveDisable)
  {
    p.(fields := p.defaults,
       selector := ResetSelection(p.selector),
       scene := Clear(p.scene),
       button := RestoreButton(p.button, preserveDisable))
  }

  /** The submit handler up to the `await`: it either refuses with an alert
      and leaves the page alone, or has disabled the button and sent the
      request. */
  datatype Begin<C> = Refused(notice: Notice) | Sending(page: PageState<C>)

  /** Lines 216-226. */
  function BeginSubmit<C>(p: PageState<C>): (r: Begin<C>)
    ensures r.Refused? <==> !CanSend(p.fields.address, p.fields.coordinates)
    ensures r.Refused? ==> r.notice == ChooseAddress
    ensures r.Sending? ==> r.page.(button := p.button) == p
    ensures r.Sending? ==> (r.page.button.Some? <==> p.button.Some?)
    ensures r.Sending? && r.page.button.Some? ==>
      r.page.button.value.disabled && r.page.button.value.text == p.button.value.text
  {
    if !CanSend(p.fields.address, p.fields.coordinates) then Refused(ChooseAddress)
    else Sending(p.(button := StartRequest(p.button)))
  }

  /** The page after the request has ended, and the alert shown. */
  datatype Settled<C> = Settled(page: PageState<C>, notice: Notice)

  /** Lines 227-247: on success the button is marked as sent and then the
      whole form is reset with `resetForm(false)`; on a failure status or a
      thrown `fetch` only the button changes, enabled for a retry. */
  function CompleteSubmit<C>(p: PageState<C>, resp: Response): (r: Settled<C>)
    requires p.Valid()
    ensures r.page.Valid()
    ensures (r.page.button, r.notice) == Settle(p.button, resp)
    ensures resp == Ok ==>
      && r.page.fields == p.defaults
      && r.page.scene.placemark.None?
      && r.page.selector == ResetSelection(p.selector)
      && r.page.detectedCity == p.detectedCity
      && r.page.defaults == p.defaults
    ensures resp != Ok ==> r.page == p.(button := r.page.button)
  {
    match resp
    case Ok => Settled(ResetForm(p.(button := MarkSent(p.button)), false), Thanks)
    case NotOk => Settled(p.(button := ReopenAfterFailure(p.button)), SendFailed)
    case Failed => Settled(p.(button := ReopenAfterFailure(p.button)), SendError)
  }

  /** A blank address or blank coordinates never start a request: the
      handler alerts and returns before it touches the button. */
  lemma BlankFormIsRefused<C>(p: PageState<C>)
    requires AllSpace(p.fields.address) || AllSpace(p.fields.coordinates)
    ensures BeginSubmit(p) == Refused(ChooseAddress)
  {
  }

  /** A whole submission that passed the gate: the button is disabled while
      the request is in flight and enabled afterwards whatever the outcome;
      after a success the form is cleared, the placemark is gone and the
      button reads "Отправить заявку" again, so the form can be sent anew. */
  lemma {:induction false} SubmissionLifecycle<C>(p: PageState<C>, resp: Response)
    requires p.Valid() && p.button.Some?
    requires CanSend(p.fields.address, p.fields.coordinates)
    ensures BeginSubmit(p).Sending? && BeginSubmit(p).page.button.value.disabled
    ensures var done := CompleteSubmit(BeginSubmit(p).page, resp).page;
      && !done.button.value.disabled
      && (resp == Ok ==> done.button.value.text == SubmitLabel && done.scene.placemark.None?)
      && (resp != Ok ==> done.button.value.text == p.button.value.text && done.scene == p.scene)
  {
    var sent := BeginSubmit(p).page;
    assert sent.Valid();
    RequestEndsEnabled(p.button, resp);
  }

  /** Choosing a location whose first geocoder result has an address line
      and whose coordinate text is not blank makes the form sendable. */
  lemma LocateEnablesSubmit<C>(p: PageState<C>, c: C, results: seq<GeoObject>, coordText: string)
    requires |results| > 0
    requires !AllSpace(results[0].addressLine) && !AllSpace(coordText)
    ensures BeginSubmit(Locate(p, c, results, coordText)).Sending?
  {
  }

  /** Each handler keeps the page's invariant: the map shows the placemark
      exactly when there is one. */
  lemma HandlersKeepValid<C>(p: PageState<C>, c: C, results: seq<GeoObject>, coordText: string,
                             typed: string, resp: Response)
    requires p.Valid()
    ensures NameInput(p, typed).Valid() && PhoneInput(p, typed).Valid()
    ensures Locate(p, c, results, coordText).Valid()
    ensures BeginSubmit(p).Sending? ==> BeginSubmit(p).page.Valid()
    ensures BeginSubmit(p).Sending? ==> CompleteSubmit(BeginSubmit(p).page, resp).page.Valid()
  {
  }
}

=== FILE: placemark.dfy ===
/** The single placemark (script.js, `setPlacemarkAndAddress` and
    `resetForm`). Coordinates are an opaque type parameter `C`: the
    placemark only stores and replaces them. */
module Placemark {
  import opened Wrappers

  /** The module-level `placemark` variable and the number of placemarks in
      the map's `geoObjects` collection. */
  datatype Scene<C> = Scene(placemark: Option<C>, onMap: nat) {
    /** The map shows the placemark exactly when the variable holds one. */
    predicate Valid() {
      onMap == if placemark.Some? then 1 else 0
    }
  }

  /** A page before the first location is chosen. */
  function Empty<C>(): (sc: Scene<C>)
    ensures sc.Valid() && sc.placemark.None?
  {
    Scene(None, 0)
  }

  /** Lines 163-168: the first call creates the placemark and adds it to the
      map; later calls move the existing one, never adding a second. */
  function Place<C>(sc: Scene<C>, c: C): (r: Scene<C>)
    ensures r.placemark == Some(c)
    ensures sc.placemark.Some? ==> r.onMap == sc.onMap
    ensures sc.Valid() ==> r.Valid() && r.onMap == 1
  {
    match sc.placemark
    case Some(_) => Scene(Some(c), sc.onMap)
    case None => Scene(Some(c), sc.onMap + 1)
  }

  /** Lines 252-255: the placemark is taken off the map and forgotten. */
  function Clear<C>(sc: Scene<C>): (r: Scene<C>)
    requires sc.Valid()
    ensures r.Valid() && r.placemark.None? && r.onMap == 0
  {
    if sc.placemark.Some? then Scene(None, sc.onMap - 1) else sc
  }

  /** The placemark after a run of chosen locations, in order. */
  function PlaceAll<C>(sc: Scene<C>, cs: seq<C>): Scene<C>
    decreases |cs|
  {
    if |cs| == 0 then sc else PlaceAll(Place(sc, cs[0]), cs[1..])
  }

  /** After any non-empty run of locations there is exactly one placemark
      on the map, and it stands at the last location. */
  lemma {:induction false} PlaceAllLast<C>(sc: Scene<C>, cs: seq<C>)
    requires sc.Valid()
    requires |cs| > 0
    ensures PlaceAll(sc, cs).Valid()
    ensures PlaceAll(sc, cs).onMap == 1
    ensures PlaceAll(sc, cs).placemark == Some(cs[|cs| - 1])
    decreases |cs|
  {
    if |cs| > 1 {
      PlaceAllLast(Place(sc, cs[0]), cs[1..]);
    }
  }
}

=== FILE: sanitizer_examples.dfy ===
/** Worked examples of the two input filters. Each input is written as
    short literal pieces: the verifier evaluates the filter on every piece
    and the pieces are joined with `KeepConcat`. */
module SanitizerExamples {
  import opened Sanitizers

  /** The filter on the first three pieces of the phone example. The
      pieces are proved in groups of two or three because evaluating the
      filter on more literal characters at once costs the verifier too
      much. */
  lemma PhonePieces()
    ensures Keep("+7 ", IsAsciiDigit) == "7"
    ensures Keep("(70", IsAsciiDigit) == "70"
    ensures Keep("1) ", IsAsciiDigit) == "1"
  {
  }

  /** The remaining three pieces of the phone example. */
  lemma MorePhonePieces()
    ensures Keep("123", IsAsciiDigit) == "123"
    ensures Keep("-45", IsAsciiDigit) == "45"
    ensures Keep("-67", IsAsciiDigit) == "67"
  {
  }

  /** A formatted phone number keeps its eleven digits. */
  lemma PhoneExample()
    ensures SanitizePhone("+7 " + "(70" + "1) " + "123" + "-45" + "-67") == "77011234567"
  {
    var d := IsAsciiDigit;
    var a, b, c, e, f, g := "+7 ", "(70", "1) ", "123", "-45", "-67";
    PhonePieces();
    MorePhonePieces();
    KeepConcat(a, b, d);
    KeepConcat(a + b, c, d);
    KeepConcat(a + b + c, e, d);
    KeepConcat(a + b + c + e, f, d);
    KeepConcat(a + b + c + e + f, g, d);
    assert "7" + "70" + "1" + "123" + "45" + "67" == "77011234567";
  }

  /** The first two pieces of the name example, kept apart from the rest
      for the same reason as the phone pieces. */
  lemma NameFrontPieces()
    ensures Keep("Айг", IsNameChar) == "Айг"
    ensures Keep("ері", IsNameChar) == "ері"
  {
  }

  /** The last three pieces of the name example, from "м-Қ" on. */
  lemma NameBackPieces()
    ensures Keep("м-Қ", IsNameChar) == "м-Қ"
    ensures Keep("ыз9", IsNameChar) == "ыз"
    ensures Keep("9", IsNameChar) == ""
  {
  }

  /** The name example's letters before the hyphen pass unchanged. */
  lemma NameFront()
    ensures Keep("Айг" + "ері", IsNameChar) == "Айг" + "ері"
  {
    NameFrontPieces();
    KeepConcat("Айг", "ері", IsNameChar);
  }

  /** The name example's rest keeps the hyphen and letters and loses the
      digits. */
  lemma NameBack()
    ensures Keep("м-Қ" + "ыз9" + "9", IsNameChar) == "м-Қ" + "ыз"
  {
    NameBackPieces();
    KeepConcat("м-Қ", "ыз9", IsNameChar);
    KeepConcat("м-Қ" + "ыз9", "9", IsNameChar);
    assert "м-Қ" + "ыз" + "" == "м-Қ" + "ыз";
  }

  /** A Kazakh name with a hyphen keeps its letters and its hyphen and
      loses the digits typed after it. */
  lemma NameExample()
    ensures SanitizeName("Айг" + "ері" + "м-Қ" + "ыз9" + "9") == "Айгерім-Қыз"
  {
    var front, back := "Айг" + "ері", "м-Қ" + "ыз9" + "9";
    NameFront();
    NameBack();
    KeepConcat(front, back, IsNameChar);
    assert "Айг" + "ері" + "м-Қ" + "ыз9" + "9" == front + back;
    assert "Айг" + "ері" + ("м-Қ" + "ыз") == "Айгерім-Қыз";
  }

  /** The two pieces of the Ғ example. */
  lemma GhainPieces()
    ensures Keep("Ғал", IsNameChar) == "ал"
    ensures Keep("ым", IsNameChar) == "ым"
  {
  }

  /** The Kazakh letter Ғ is missing from the name field's class, so a name
      that starts with it loses its first letter. */
  lemma GhainIsDropped()
    ensures SanitizeName("Ғал" + "ым") == "алым"
  {
    GhainPieces();
    KeepConcat("Ғал", "ым", IsNameChar);
  }

  /** The first three pieces of the Latin example, grouped like the phone
      pieces. */
  lemma LatinPieces()
    ensures Keep("Aig", IsNameChar) == ""
    ensures Keep("eri", IsNameChar) == ""
    ensures Keep("m12", IsNameChar) == ""
  {
  }

  /** The remaining two pieces of the Latin example. */
  lemma MoreLatinPieces()
    ensures Keep("3!@", IsNameChar) == ""
    ensures Keep("#", IsNameChar) == ""
  {
  }

  /** A name typed in Latin letters, digits and punctuation is erased
      entirely: Latin letters are outside the name field's alphabet. */
  lemma LatinNameExample()
    ensures SanitizeName("Aig" + "eri" + "m12" + "3!@" + "#") == ""
  {
    var n := IsNameChar;
    var a, b, c, e, f := "Aig", "eri", "m12", "3!@", "#";
    LatinPieces();
    MoreLatinPieces();
    KeepConcat(a, b, n);
    KeepConcat(a + b, c, n);
    KeepConcat(a + b + c, e, n);
    KeepConcat(a + b + c + e, f, n);
  }
}

=== FILE: sanitizers.dfy ===
/** The two live input filters: on every `input` event the name field and
    the phone field are rewritten with `value.replace(/[^…]/g, '')`, which
    deletes every character outside the class and keeps the rest in order. */
module Sanitizers {
  import opened JsText

  /** `a` can be obtained from `b` by deleting characters. */
  predicate IsSubsequence(a: string, b: string)
    decreases |b|
  {
    if |a| == 0 then true
    else if |b| == 0 then false
    else if a[0] == b[0] then IsSubsequence(a[1..], b[1..])
    else IsSubsequence(a, b[1..])
  }

  /** What `s.replace(/[^C]/g, '')` leaves of `s`, where `keep` is the
      class C: the characters of `s` that `keep` accepts, in their order.
      `KeepExact` states that nothing else changes. */
  function Keep(s: string, keep: char -> bool): (r: string)
    ensures |r| <= |s|
    ensures forall i :: 0 <= i < |r| ==> keep(r[i])
  {
    if |s| == 0 then []
    else if keep(s[0]) then [s[0]] + Keep(s[1..], keep)
    else Keep(s[1..], keep)
  }

  /** The filter deletes exactly the characters outside the class: what it
      keeps is a subsequence of the input, and every character of the class
      occurs in it as often as in the input. */
  lemma {:induction false} KeepExact(s: string, keep: char -> bool)
    ensures IsSubsequence(Keep(s, keep), s)
    ensures forall c :: keep(c) ==> multiset(Keep(s, keep))[c] == multiset(s)[c]
    decreases |s|
  {
    if |s| > 0 {
      var rest := Keep(s[1..], keep);
      KeepExact(s[1..], keep);
      assert s == [s[0]] + s[1..];
      if keep(s[0]) {
        assert ([s[0]] + rest)[1..] == rest;
      }
    }
  }

  /** Filtering distributes over concatenation, so the filter acts on each
      character independently of its neighbours. */
  lemma {:induction false} KeepConcat(s: string, t: string, keep: char -> bool)
    ensures Keep(s + t, keep) == Keep(s, keep) + Keep(t, keep)
    decreases |s|
  {
    if |s| == 0 {
      assert s + t == t;
    } else {
      assert (s + t)[1..] == s[1..] + t;
      KeepConcat(s[1..], t, keep);
    }
  }

  /** The filter leaves `s` as it is exactly when every character of `s`
      is in the class. */
  lemma {:induction false} KeepUnchangedIff(s: string, keep: char -> bool)
    ensures Keep(s, keep) == s <==> forall i :: 0 <= i < |s| ==> keep(s[i])
    decreases |s|
  {
    if |s| > 0 {
      KeepUnchangedIff(s[1..], keep);
      if forall i :: 0 <= i < |s| ==> keep(s[i]) {
        assert forall i :: 0 <= i < |s[1..]| ==> keep(s[1..][i]) by {
          forall i | 0 <= i < |s[1..]|
            ensures keep(s[1..][i])
          {
            assert s[1..][i] == s[i + 1];
          }
        }
        assert s == [s[0]] + s[1..];
      }
    }
  }

  /** Running the filter twice removes nothing more. */
  lemma KeepIdempotent(s: string, keep: char -> bool)
    ensures Keep(Keep(s, keep), keep) == Keep(s, keep)
  {
    KeepUnchangedIff(Keep(s, keep), keep);
  }

  /** The name field's class `[А-Яа-яЁёӘәӨөҚқҢңҰұҮүҺһІі\s\-]`: the Russian
      alphabet, the Kazakh letters Ә Ө Қ Ң Ұ Ү Һ І, white space and the
      hyphen. The Kazakh letter Ғ ғ is not in the class, and neither are
      Latin letters, digits or punctuation. */
  predicate IsNameChar(c: char) {
    || ('А' <= c <= 'Я') || ('а' <= c <= 'я') || c == 'Ё' || c == 'ё'
    || c == 'Ә' || c == 'ә' || c == 'Ө' || c == 'ө' || c == 'Қ' || c == 'қ'
    || c == 'Ң' || c == 'ң' || c == 'Ұ' || c == 'ұ' || c == 'Ү' || c == 'ү'
    || c == 'Һ' || c == 'һ' || c == 'І' || c == 'і'
    || IsJsSpace(c) || c == '-'
  }

  /** The phone field's class `\d`: without the `u` flag exactly `0`-`9`. */
  predicate IsAsciiDigit(c: char) {
    '0' <= c <= '9'
  }

  /** The name field's `input` handler. */
  function SanitizeName(s: string): (r: string)
    ensures forall i :: 0 <= i < |r| ==> IsNameChar(r[i])
    ensures forall c :: IsNameChar(c) ==> multiset(r)[c] == multiset(s)[c]
    ensures IsSubsequence(r, s)
  {
    KeepExact(s, IsNameChar);
    Keep(s, IsNameChar)
  }

  /** The phone field's `input` handler. */
  function SanitizePhone(s: string): (r: string)
    ensures forall i :: 0 <= i < |r| ==> IsAsciiDigit(r[i])
    ensures forall c :: IsAsciiDigit(c) ==> multiset(r)[c] == multiset(s)[c]
    ensures IsSubsequence(r, s)
  {
    KeepExact(s, IsAsciiDigit);
    Keep(s, IsAsciiDigit)
  }

  /** A second `input` event on an already filtered name changes nothing,
      and filtering never lengthens the value. */
  lemma SanitizeNameIdempotent(s: string)
    ensures SanitizeName(SanitizeName(s)) == SanitizeName(s)
    ensures |SanitizeName(s)| <= |s|
  {
    KeepIdempotent(s, IsNameChar);
  }

  /** The same for the phone field. */
  lemma SanitizePhoneIdempotent(s: string)
    ensures SanitizePhone(SanitizePhone(s)) == SanitizePhone(s)
    ensures |SanitizePhone(s)| <= |s|
  {
    KeepIdempotent(s, IsAsciiDigit);
  }
}

=== FILE: submission.dfy ===
/** The submit handler's validation gate and the submit button's states
    (script.js, the `submit` listener and the button part of `resetForm`).
    The button may be missing from the page, so every step that touches it
    works on an `Option<Button>` and leaves a missing button missing. */
module Submission {
  import opened Wrappers
  import opened JsText

  /** The button's text while the form can be sent. */
  const SubmitLabel := "Отправить заявку"

  /** The text written on the button when the intake endpoint accepts. */
  const SentLabel := "Заявка отправлена"

  /** The submit button: whether it is disabled, and its text. */
  datatype Button = Button(disabled: bool, text: string)

  /** How the POST ended: a response with `ok` set (status 2xx), a response
      without it, or a rejected `fetch`. */
  datatype Response = Ok | NotOk | Failed

  /** The alert the handler shows. */
  datatype Notice =
    | ChooseAddress   // the address or the coordinates are blank
    | Thanks          // the endpoint accepted the request
    | SendFailed      // the endpoint answered with a non-2xx status
    | SendError       // `fetch` threw

  /** Lines 218-224: the request is sent only when the trimmed address and
      the trimmed coordinates are both non-empty, that is, when each holds a
      character other than white space. */
  function CanSend(address: string, coordinates: string): (ok: bool)
    ensures ok <==> !AllSpace(address) && !AllSpace(coordinates)
  {
    Trim(address) != "" && Trim(coordinates) != ""
  }

  /** Line 226: once the gate is passed the button is disabled for as long
      as the request is in flight; its text stays. */
  function StartRequest(b: Option<Button>): (r: Option<Button>)
    ensures r.Some? <==> b.Some?
    ensures r.Some? ==> r.value.disabled && r.value.text == b.value.text
  {
    match b
    case Some(btn) => Some(Button(true, btn.text))
    case None => None
  }

  /** Lines 234-237: the endpoint accepted, so the button is disabled and
      relabelled. */
  function MarkSent(b: Option<Button>): (r: Option<Button>)
    ensures r.Some? <==> b.Some?
    ensures r.Some? ==> r.value == Button(true, SentLabel)
  {
    match b
    case Some(_) => Some(Button(true, SentLabel))
    case None => None
  }

  /** Lines 260-265, the button part of `resetForm(preserveDisable)`: unless
      asked to preserve it, the button is enabled and gets its original
      text back. */
  function RestoreButton(b: Option<Button>, preserveDisable: bool): (r: Option<Button>)
    ensures r.Some? <==> b.Some?
    ensures preserveDisable ==> r == b
    ensures !preserveDisable && r.Some? ==> r.value == Button(false, SubmitLabel)
  {
    match b
    case Some(_) => if preserveDisable then b else Some(Button(false, SubmitLabel))
    case None => None
  }

  /** Lines 241-246: after a failed request the button is enabled again for
      a retry; its text stays. */
  function ReopenAfterFailure(b: Option<Button>): (r: Option<Button>)
    ensures r.Some? <==> b.Some?
    ensures r.Some? ==> !r.value.disabled && r.value.text == b.value.text
  {
    match b
    case Some(btn) => Some(Button(false, btn.text))
    case None => None
  }

  /** The button when the request has ended, and the alert shown. On
      success the handler disables and relabels the button and then calls
      `resetForm(false)`, which enables it again with its original text. */
  function Settle(b: Option<Button>, resp: Response): (r: (Option<Button>, Notice))
    ensures r.0.Some? <==> b.Some?
    ensures r.0.Some? ==> !r.0.value.disabled
    ensures resp == Ok ==> r.1 == Thanks && (r.0.Some? ==> r.0.value.text == SubmitLabel)
    ensures resp == NotOk ==> r.1 == SendFailed && (r.0.Some? ==> r.0.value.text == b.value.text)
    ensures resp == Failed ==> r.1 == SendError && (r.0.Some? ==> r.0.value.text == b.value.text)
  {
    match resp
    case Ok => (RestoreButton(MarkSent(b), false), Thanks)
    case NotOk => (ReopenAfterFailure(b), SendFailed)
    case Failed => (ReopenAfterFailure(b), SendError)
  }

  /** Whatever the outcome, a request never leaves the button disabled:
      it is disabled while the request is in flight and enabled once it has
      ended, so the user can always submit again. The text "Заявка
      отправлена" never survives the handler. */
  lemma {:induction false} RequestEndsEnabled(b: Option<Button>, resp: Response)
    requires b.Some?
    ensures StartRequest(b).value.disabled
    ensures !Settle(StartRequest(b), resp).0.value.disabled
    ensures Settle(StartRequest(b), resp).0.value.text
            == (if resp == Ok then SubmitLabel else b.value.text)
    ensures Settle(StartRequest(b), resp).0.value.text != SentLabel || b.value.text == SentLabel
  {
    var started := StartRequest(b);
    assert started.value.text == b.value.text;
    assert SubmitLabel != SentLabel by {
      assert SubmitLabel[0] != SentLabel[0];
    }
  }
}

=== FILE: wrappers.dfy ===
/** The optional-value type shared by the other modules. */
module Wrappers {

  /** A value that may be missing: an absent DOM element, a city that was
      not detected, a placemark not yet created. */
  datatype Option<+T> = None | Some(value: T)
}
